=== FILE: README.md ===
# Clikt command core in Dafny

A model of the command-tree bookkeeping of clikt's `CliktCommand`: a command
node with its option and argument registries, its subcommands, its optional
environment-variable prefix and its lazily built context. The Kotlin class
mutates nodes in place; here a node is an immutable `Command` value and every
operation returns the updated node.

- `Params`: options (`Opt`, names in declaration order), arguments (`Arg`) and
  the help entries handed to the formatter; `RegisteredNames` is
  `registeredOptionNames()`.
- `Contexts`: the context record (help option names, help option message,
  parent) and `Build`, the stand-in for `Context.build`.
- `Commands`: registration, the `context` getter, `createContext` with help
  injection, `shortHelp`, `allHelpParams`, `getFormattedUsage/Help` and
  `context { }`.
- `Subcommands`: `normalizeEnvvar` and `subcommands(...)`.
- `Execution`: `parse` and `main`, with the thrown signals as a datatype and
  `main`'s catch clauses as an ordered list scanned for the first match.
- `Text`: Kotlin's `trim()`, `\w`, ASCII case conversion, `split(...).last()`
  and the rendering of a null string as "null".

Kotlin exceptions become values: `registerOption` returns the unchanged node
with a `DuplicateOptionName` error, the `context` getter returns a `Result`,
and `main` returns an `Outcome` (printed line plus exit status, a normal
return, or an exception that escapes).

## Model

| member | source | states |
|---|---|---|
| Commands.NewCommand | clikt/src/main/kotlin/com/github/ajalt/clikt/core/CliktCommand.kt:10-23 | a new command uses the declared name, else the fallback name; registries and subcommands start empty, the customization is empty and there is no context |
| Commands.DefaultName | clikt/src/main/kotlin/com/github/ajalt/clikt/core/CliktCommand.kt:16 | the fallback name is the lower-cased last `$`-separated piece of the class name (the whole name when it has no `$`): it contains no `$` and no upper-case ASCII letter and is no longer than the class name |
| Text.LastSegment | clikt/src/main/kotlin/com/github/ajalt/clikt/core/CliktCommand.kt:16 | `split("$").last()` is a suffix with no `$`, preceded by a `$` unless it is the whole string |
| Commands.GetContext | clikt/src/main/kotlin/com/github/ajalt/clikt/core/CliktCommand.kt:23-28 | reading the context succeeds exactly when one exists and then returns it; otherwise it fails with "Context accessed before parse has been called." |
| Params.RegisteredNames | clikt/src/main/kotlin/com/github/ajalt/clikt/core/CliktCommand.kt:30 | a name is registered iff some option of the list has it |
| Params.RegisteredNamesAppend | clikt/src/main/kotlin/com/github/ajalt/clikt/core/CliktCommand.kt:30 | appending an option adds exactly its names to the registered names |
| Params.DistinctNamesAppend | clikt/src/main/kotlin/com/github/ajalt/clikt/core/CliktCommand.kt:50-55 | appending an option whose names are all new keeps every name owned by at most one option |
| Commands.FirstRegistered | clikt/src/main/kotlin/com/github/ajalt/clikt/core/CliktCommand.kt:51-54 | finds nothing iff no name is registered; otherwise the first name, in order, that is registered |
| Commands.RegisterOption | clikt/src/main/kotlin/com/github/ajalt/clikt/core/CliktCommand.kt:50-56 | fails iff some name of the option is already registered, naming such a name and leaving the command unchanged; on success the option is appended after the existing ones, nothing else changes, and the registered names become the old ones plus the option's |
| Commands.RegisterOptionKeepsNamesDistinct | clikt/src/main/kotlin/com/github/ajalt/clikt/core/CliktCommand.kt:50-56 | registration never lets two options of a command share a name |
| Commands.RegisterTwoOptions | clikt/src/main/kotlin/com/github/ajalt/clikt/core/CliktCommand.kt:50-56 | after a first option with new names, a second is rejected iff it shares a name with the first or an earlier option; if accepted both are present in order |
| Commands.RegisterArgument | clikt/src/main/kotlin/com/github/ajalt/clikt/core/CliktCommand.kt:58-60 | the argument is always appended after the existing ones; options and everything else are untouched |
| Contexts.Build | clikt/src/main/kotlin/com/github/ajalt/clikt/core/CliktCommand.kt:33 | the new context records the given parent; each field the customization leaves unset is taken from the parent, else from the default |
| Commands.Missing | clikt/src/main/kotlin/com/github/ajalt/clikt/core/CliktCommand.kt:36 | `helpOptionNames - registeredOptionNames()`: a name is kept iff it is a help name and not registered |
| Commands.MissingCoversDifference | clikt/src/main/kotlin/com/github/ajalt/clikt/core/CliktCommand.kt:36-37 | the kept names are exactly the set difference, and none are kept only when every help name is registered |
| Commands.AppendHelpOption | clikt/src/main/kotlin/com/github/ajalt/clikt/core/CliktCommand.kt:37 | appending a help option made of the missing names registers every help name and keeps names distinct |
| Commands.InjectHelp | clikt/src/main/kotlin/com/github/ajalt/clikt/core/CliktCommand.kt:36-37 | adds at most one option, and one exactly when some help name is unregistered; that option requests help and its names are the help names minus the registered ones; afterwards every help name is registered; distinct names stay distinct; earlier options and all other fields are untouched |
| Commands.InjectHelpIsRegistration | clikt/src/main/kotlin/com/github/ajalt/clikt/core/CliktCommand.kt:37 | appending the help option directly gives the same command as `registerOption`, whose duplicate check it always passes |
| Commands.CreateContext | clikt/src/main/kotlin/com/github/ajalt/clikt/core/CliktCommand.kt:32-42 | sets this node's context from its customization and the given parent; when that context has no help names, options and subcommands are left as they were; otherwise the options become those of `InjectHelp` (the help option over the help names not yet registered, appended only when that difference is non-empty), so every help name ends up registered, and each subcommand, in order, is rebuilt recursively with this node's context as parent, keeping all its other fields |
| Commands.CreateContextIdempotent | clikt/src/main/kotlin/com/github/ajalt/clikt/core/CliktCommand.kt:32-42 | building the context tree again from the same parent changes nothing: the help option is never added twice |
| Commands.CreateContextKeepsNamesDistinct | clikt/src/main/kotlin/com/github/ajalt/clikt/core/CliktCommand.kt:32-42 | if no node of the tree has two options sharing a name, the same holds after context construction |
| Commands.EmptyHelpNamesSkipSubcommands | clikt/src/main/kotlin/com/github/ajalt/clikt/core/CliktCommand.kt:35 | with no help names the early return leaves a subcommand without a context, so reading its context fails |
| Commands.CreateContextIntended | clikt/src/main/kotlin/com/github/ajalt/clikt/core/CliktCommand.kt:32-42 | corrected construction: every node of the tree gets a context, each child's context has its parent's as parent, and every help name is registered; the options stay as they were when there are no help names and otherwise become those of `InjectHelp`, and each child is rebuilt by the same corrected construction, so it otherwise changes only what the help injection changes |
| Commands.CreateContextIntendedAgrees | clikt/src/main/kotlin/com/github/ajalt/clikt/core/CliktCommand.kt:32-42 | when every context of the tree has help names, the written construction equals the corrected one, so every node of the tree gets a context |
| Commands.UnclearedHelpNamesReachEveryNode | clikt/src/main/kotlin/com/github/ajalt/clikt/core/CliktCommand.kt:32-42 | when no customization sets the help names to the empty list and the parent has some, every context of the tree has help names, so the early return at line 35 is never taken |
| Commands.RootContextsAllBuilt | clikt/src/main/kotlin/com/github/ajalt/clikt/core/CliktCommand.kt:32-42 | parsing a root whose customizations never clear the help names builds a context at every node of the tree |
| Commands.FirstSentenceEnd | clikt/src/main/kotlin/com/github/ajalt/clikt/core/CliktCommand.kt:44 | the index of the first `.` or newline, or the length when there is none |
| Text.Trim | clikt/src/main/kotlin/com/github/ajalt/clikt/core/CliktCommand.kt:44 | `trim()` returns a slice whose margins are all whitespace and whose ends are not |
| Text.TrimUnique | clikt/src/main/kotlin/com/github/ajalt/clikt/core/CliktCommand.kt:44 | that description determines the result: any such slice equals `Trim` |
| Text.TrimKeepsOut | clikt/src/main/kotlin/com/github/ajalt/clikt/core/CliktCommand.kt:44 | trimming introduces no character absent from the input |
| Commands.ShortHelp | clikt/src/main/kotlin/com/github/ajalt/clikt/core/CliktCommand.kt:44 | the result has no `.` and no newline, is the trim of the help text before its first `.` or newline, and equals `help.trim()` when there is neither |
| Commands.PresentHelps | clikt/src/main/kotlin/com/github/ajalt/clikt/core/CliktCommand.kt:46-47 | `mapNotNull { it.parameterHelp }`: an entry is kept iff it is present in the input, and the result is no longer than the input |
| Commands.PresentHelpsAppend | clikt/src/main/kotlin/com/github/ajalt/clikt/core/CliktCommand.kt:46-47 | filtering a concatenation is the concatenation of the filtered parts, so entries keep their relative order |
| Commands.AllHelpParams | clikt/src/main/kotlin/com/github/ajalt/clikt/core/CliktCommand.kt:46-48 | option entries come first, then argument entries, then one entry per subcommand in order with its name and short help |
| Commands.GetFormattedUsage | clikt/src/main/kotlin/com/github/ajalt/clikt/core/CliktCommand.kt:62-65 | an existing context is kept; a missing one is built as a root (no parent); the usage is formatted from the parameters of the resulting command |
| Commands.GetFormattedHelp | clikt/src/main/kotlin/com/github/ajalt/clikt/core/CliktCommand.kt:67-70 | as for usage, with the help text and epilog |
| Commands.FormattedHelpListsHelpOption | clikt/src/main/kotlin/com/github/ajalt/clikt/core/CliktCommand.kt:67-69 | help asked for before any parse lists an option carrying each help name, since the context is built before parameters are gathered; assumes that any existing option already named so carries help metadata |
| Commands.Customize | clikt/src/main/kotlin/com/github/ajalt/clikt/core/CliktCommand.kt:125-127 | `context { }` replaces only the customization, which the next context construction uses |
| Execution.Parse | clikt/src/main/kotlin/com/github/ajalt/clikt/core/CliktCommand.kt:74-77 | the context tree is always rebuilt from the given parent before the parser runs on the rebuilt command |
| Execution.ParseTwiceSameCommand | clikt/src/main/kotlin/com/github/ajalt/clikt/core/CliktCommand.kt:74-77 | parsing again with the same parent leaves the command as the first parse did |
| Execution.FirstCatch | clikt/src/main/kotlin/com/github/ajalt/clikt/core/CliktCommand.kt:82-97 | the handling clause is the first in order whose type matches, or none if none matches |
| Execution.ClauseFor | clikt/src/main/kotlin/com/github/ajalt/clikt/core/CliktCommand.kt:82-97 | each signal is caught by its own clause, a generic clikt error by the `CliktError` clause, and any other exception by none |
| Execution.EarlierClauseWins | clikt/src/main/kotlin/com/github/ajalt/clikt/core/CliktCommand.kt:82-91 | a signal that the `CliktError` clause also matches is handled by its own earlier clause |
| Execution.Handle | clikt/src/main/kotlin/com/github/ajalt/clikt/core/CliktCommand.kt:82-97 | help: the raising command's formatted help, status 0; message: the message, 0; usage error: its help message for the context, 1; other clikt error: its message ("null" if none), 1; abort: "Aborted!", 1; anything else escapes |
| Execution.Main | clikt/src/main/kotlin/com/github/ajalt/clikt/core/CliktCommand.kt:79-98 | returns normally iff the parser does; otherwise what is printed and the status are those of `Handle` for the thrown signal (help text, the message, the usage help, the error message or "Aborted!"); exits with 0 exactly for help and message signals and with 1 otherwise; only the parser's own non-clikt exceptions escape |
| Execution.HelpRequestExitsZero | clikt/src/main/kotlin/com/github/ajalt/clikt/core/CliktCommand.kt:81-84 | a help request raised by the parsed root prints that root's help over the parameters of the tree `parse` built, and exits with 0 |
| Execution.UsageErrorExitsOne | clikt/src/main/kotlin/com/github/ajalt/clikt/core/CliktCommand.kt:88-90 | a usage error prints its help message for the root's context and exits with 1 |
| Subcommands.ReplaceNonWord | clikt/src/main/kotlin/com/github/ajalt/clikt/core/CliktCommand.kt:104 | each non-word character becomes one `_`; word characters, `_` included, stay |
| Subcommands.EnvvarName | clikt/src/main/kotlin/com/github/ajalt/clikt/core/CliktCommand.kt:104 | same length as the name; only `A-Z`, `0-9` and `_`; word characters upper-cased, others `_` |
| Subcommands.EnvvarNameIdempotent | clikt/src/main/kotlin/com/github/ajalt/clikt/core/CliktCommand.kt:104 | normalizing a normalized name changes nothing |
| Subcommands.NormalizeEnvvar | clikt/src/main/kotlin/com/github/ajalt/clikt/core/CliktCommand.kt:103-105 | the parent prefix (the text "null" when absent), then `_`, then the normalized name |
| Subcommands.ChildEnvvarName | clikt/src/main/kotlin/com/github/ajalt/clikt/core/CliktCommand.kt:104 | "child" normalizes to "CHILD" |
| Subcommands.NullParentPrefixBecomesText | clikt/src/main/kotlin/com/github/ajalt/clikt/core/CliktCommand.kt:103-111 | with no prefix on parent or child, the child "child" gets "null_CHILD" |
| Subcommands.InheritPrefix | clikt/src/main/kotlin/com/github/ajalt/clikt/core/CliktCommand.kt:109-113 | a child keeps an existing prefix; a child without one gets the derived one; either way it then has a prefix |
| Subcommands.Subcommands | clikt/src/main/kotlin/com/github/ajalt/clikt/core/CliktCommand.kt:107-123 | children are appended after the existing subcommands in the given order, each with its prefix filled in if missing; nothing else about the parent changes |
| Subcommands.SubcommandsCompose | clikt/src/main/kotlin/com/github/ajalt/clikt/core/CliktCommand.kt:107-123 | attaching two lists in two calls gives the same parent as attaching their concatenation in one |
| Subcommands.NormalizeEnvvarIntended | clikt/src/main/kotlin/com/github/ajalt/clikt/core/CliktCommand.kt:103-105 | corrected derivation: absent exactly when the parent prefix is absent, else as written |
| Subcommands.InheritPrefixIntended | clikt/src/main/kotlin/com/github/ajalt/clikt/core/CliktCommand.kt:109-113 | corrected: an existing prefix is kept, and none is invented when the parent has none |
| Subcommands.SubcommandsIntended | clikt/src/main/kotlin/com/github/ajalt/clikt/core/CliktCommand.kt:107-123 | corrected attachment: as written, except that children of a parent without prefix are attached unchanged |
| Subcommands.SubcommandsAgreeWithPrefix | clikt/src/main/kotlin/com/github/ajalt/clikt/core/CliktCommand.kt:103-123 | when the parent has a prefix the corrected and the written attachment coincide |

## Left out

- `Parser.parse` (line 76) is a function parameter: from the arguments and the rebuilt command it either returns or throws. What the parser does to the tree (values, running `run()`, subcommand contexts) is not modelled; a help signal carries the command as the parser hands it over.
- `HelpFormatter.formatUsage/formatHelp` (lines 64, 69) and `UsageError.helpMessage` (line 89) are not part of this model; their results are kept as symbolic terms (`Rendered`, `UsageHelp`) recording the arguments of the call.
- `Context.build` and `Context.Builder` (lines 33, 125-127) are not part of this model. `Contexts.Build` assumes override, else parent, else default; the defaults `-h`/`--help` and "Show this message and exit" are assumptions. A customization block is a record of optional overrides, not a function.
- `helpOption(...)` is not part of this model; the synthesized option carries its names and message as help metadata and is marked as requesting help.
- The exception classes are not part of this model. `PrintHelpMessage`, `PrintMessage` and `UsageError` are assumed to be subclasses of `CliktError`, so its clause would also match them; the first-match order makes that harmless. `Abort` is taken not to be a subclass of `CliktError`; if it were, the `Abort` clause (lines 94-96) could never run.
- Exceptions thrown by the context builder, the formatter or `helpMessage` are not modelled.
- `println` and `exitProcess` (lines 83-96) become the `Outcome` value.
- `run()` and `aliases()` (lines 72, 100) have no behaviour here; `invokeWithoutSubcommand` is only carried.
- `javaClass.simpleName` (line 16) is an input string; `toLowerCase()` and `toUpperCase()` are ASCII, so locale effects such as the Turkish dotted I are not modelled.
- Object identity is not modelled: a command shared by two parents, attached twice, or part of a cycle is a separate value at each place. The `Iterable` and `vararg` overloads of `subcommands` (lines 107-123) behave the same and share one function.
- Commands.AllHelpParams: states which entries make up the option part and the argument part, not their order within each part; that order is stated separately by Commands.PresentHelpsAppend.

## Findings

| source | as written | input that shows it | evidently intended | confidence | as-written member | corrected member |
|---|---|---|---|---|---|---|
| clikt/src/main/kotlin/com/github/ajalt/clikt/core/CliktCommand.kt:103-105 | `prefix.let { … }` runs for a null prefix, and `String?.plus` turns it into the text "null" | parent without prefix, child named "child" without prefix: the child's prefix becomes "null_CHILD" | `prefix?.let`: no prefix is derived when the parent has none, which is what the `String?` return type allows for | medium, not executed | Subcommands.NullParentPrefixBecomesText | Subcommands.SubcommandsIntended |
| clikt/src/main/kotlin/com/github/ajalt/clikt/core/CliktCommand.kt:35-41 | the early `return` for empty help names also skips building the subcommands' contexts | root whose customization sets the help names to empty, with one subcommand that has no context: afterwards reading that subcommand's context fails | skip only the help injection and always build the subcommand contexts | medium, not executed | Commands.EmptyHelpNamesSkipSubcommands | Commands.CreateContextIntended |

`Subcommands`, `CreateContext` and the members built on them follow the code as
written. The corrected variants sit beside them, with lemmas showing where the
two agree.

=== FILE: commands.dfy ===
/**
 * A command node and the bookkeeping `CliktCommand` does on it: the option
 * and argument registries, lazy context construction with help-option
 * injection, the short help shown for subcommands, and the parameter list
 * handed to the help formatter. Kotlin mutates the node in place; here every
 * operation returns the updated node.
 */
module Commands {
  import opened Wrappers
  import opened Text
  import opened Params
  import opened Contexts

  datatype Command = Command(
    name: string,
    help: string,
    epilog: string,
    invokeWithoutSubcommand: bool,
    subcommands: seq<Command>,
    options: seq<Opt>,
    arguments: seq<Arg>,
    contextConfig: Config,
    autoEnvvarPrefix: Option<string>,
    context: Option<Context>)

  /**
   * Output of the help formatter, kept as the call that produced it: the
   * formatter itself lies outside the core.
   */
  datatype Rendered =
    | FormattedUsage(params: seq<ParamHelp>, programName: string)
    | FormattedHelp(help: string, epilog: string, params: seq<ParamHelp>, programName: string)

  /* ---------------------------------------------------------------- naming */

  /** `r` is the lower-cased text after the last `$` of `s` (all of `s` when it has none). */
  ghost predicate IsLowerLastPiece(r: string, s: string) {
    exists k :: && 0 <= k <= |s|
               && (k > 0 ==> s[k - 1] == '$')
               && '$' !in s[k..]
               && r == Lower(s[k..])
  }

  /**
   * The fallback command name: the last `$`-separated piece of the class's
   * simple name, lower-cased (ASCII only).
   */
  function DefaultName(simpleName: string): (r: string)
    ensures |r| <= |simpleName|
    ensures '$' !in r
    ensures forall i :: 0 <= i < |r| ==> !('A' <= r[i] <= 'Z')
    ensures '$' !in simpleName ==> r == Lower(simpleName)
    ensures IsLowerLastPiece(r, simpleName)
  {
    var last := LastSegment(simpleName, '$');
    var k := |simpleName| - |last|;
    var r := Lower(last);
    assert simpleName[k..] == last && '$' !in last;
    assert k > 0 ==> simpleName[k - 1] == '$';
    assert '$' !in simpleName ==> k == 0 by {
      if k > 0 {
        assert simpleName[k - 1] in simpleName;
      }
    }
    assert forall i :: 0 <= i < |r| ==> r[i] != '$' by {
      forall i | 0 <= i < |r| ensures r[i] != '$' {
        assert last[i] != '$';
      }
    }
    r
  }

  /** A freshly constructed command: empty registries, no context yet. */
  function NewCommand(help: string, epilog: string, name: Option<string>, simpleName: string,
                      invokeWithoutSubcommand: bool, autoEnvvarPrefix: Option<string>): (c: Command)
    ensures name.Some? ==> c.name == name.value
    ensures name.None? ==> c.name == DefaultName(simpleName)
    ensures c.help == help && c.epilog == epilog && c.invokeWithoutSubcommand == invokeWithoutSubcommand
    ensures c.autoEnvvarPrefix == autoEnvvarPrefix
    ensures c.subcommands == [] && c.options == [] && c.arguments == []
    ensures c.contextConfig == NoCustomization && c.context.None?
  {
    Command(name.GetOr(DefaultName(simpleName)), help, epilog, invokeWithoutSubcommand,
            [], [], [], NoCustomization, autoEnvvarPrefix, None)
  }

  /* -------------------------------------------------------------- registry */

  /** The `require` failure of `registerOption`. */
  datatype ConfigurationError = DuplicateOptionName(name: string)

  /** The command after a registration call, and the error the call threw, if any. */
  datatype Registration = Registration(command: Command, error: Option<ConfigurationError>)

  function RegisteredOptionNames(c: Command): set<string> {
    RegisteredNames(c.options)
  }

  /** The first of `names`, in order, that is already in `registered`. */
  function FirstRegistered(names: seq<string>, registered: set<string>): (r: Option<string>)
    ensures r.None? <==> forall i :: 0 <= i < |names| ==> names[i] !in registered
    ensures r.Some? ==> r.value in registered
    ensures r.Some? ==> exists i :: 0 <= i < |names| && names[i] == r.value
                                  && forall j :: 0 <= j < i ==> names[j] !in registered
  {
    if names == [] then None
    else if names[0] in registered then Some(names[0])
    else
      var r := FirstRegistered(names[1..], registered);
      assert r.Some? ==> exists i :: 1 <= i < |names| && names[i] == r.value
                                   && forall j :: 0 <= j < i ==> names[j] !in registered by {
        if r.Some? {
          var i :| 0 <= i < |names[1..]| && names[1..][i] == r.value
                   && forall j :: 0 <= j < i ==> names[1..][j] !in registered;
          assert names[i + 1] == r.value;
          assert forall j :: 1 <= j < i + 1 ==> names[j] == names[1..][j - 1];
        }
      }
      r
  }

  /**
   * `registerOption`: every name of the new option is checked against the
   * names already registered before anything changes; the first clash
   * throws, otherwise the option goes to the end of the list.
   */
  function RegisterOption(c: Command, option: Opt): (r: Registration)
    ensures r.error.Some? <==> exists n :: n in option.names && n in RegisteredOptionNames(c)
    ensures r.error.Some? ==> r.command == c
    ensures r.error.Some? ==> r.error.value.name in option.names && r.error.value.name in RegisteredOptionNames(c)
    ensures r.error.None? ==> (&& |r.command.options| == |c.options| + 1
                               && r.command.options[..|c.options|] == c.options
                               && r.command.options[|c.options|] == option)
    ensures r.error.None? ==> r.command.(options := c.options) == c
    ensures r.error.None? ==> RegisteredOptionNames(r.command) == RegisteredOptionNames(c) + NameSet(option)
  {
    match FirstRegistered(option.names, RegisteredOptionNames(c))
    case Some(n) => Registration(c, Some(DuplicateOptionName(n)))
    case None =>
      RegisteredNamesAppend(c.options, option);
      Registration(c.(options := c.options + [option]), None)
  }

  /** Registration never lets two options of a command share a name. */
  lemma RegisterOptionKeepsNamesDistinct(c: Command, option: Opt)
    requires DistinctNames(c.options)
    ensures DistinctNames(RegisterOption(c, option).command.options)
  {
  }

  /**
   * Two options registered one after the other: the second is rejected
   * exactly when it shares a name with the first or with an earlier option;
   * when it is accepted both are registered, in order.
   */
  lemma RegisterTwoOptions(c: Command, a: Opt, b: Opt)
    requires NameSet(a) !! RegisteredOptionNames(c)
    ensures RegisterOption(c, a).error.None?
    ensures var second := RegisterOption(RegisterOption(c, a).command, b);
            second.error.Some? <==> !(NameSet(b) !! (NameSet(a) + RegisteredOptionNames(c)))
    ensures var second := RegisterOption(RegisterOption(c, a).command, b);
            second.error.None? ==> second.command.options == c.options + [a, b]
  {
  }

  /** `registerArgument`: always appends; options are untouched. */
  function RegisterArgument(c: Command, argument: Arg): (r: Command)
    ensures |r.arguments| == |c.arguments| + 1
    ensures r.arguments[..|c.arguments|] == c.arguments && r.arguments[|c.arguments|] == argument
    ensures r.(arguments := c.arguments) == c
    ensures RegisteredOptionNames(r) == RegisteredOptionNames(c)
  {
    c.(arguments := c.arguments + [argument])
  }

  /* --------------------------------------------------------------- context */

  const ContextAccessedBeforeParse: string := "Context accessed before parse has been called."

  /** The `context` getter: fails with an illegal-state error while no context exists. */
  function GetContext(c: Command): (r: Result<Context, string>)
    ensures r.Success? <==> c.context.Some?
    ensures r.Success? ==> r.value == c.context.value
    ensures r.Failure? ==> r.error == ContextAccessedBeforeParse
  {
    match c.context
    case Some(ctx) => Success(ctx)
    case None => Failure(ContextAccessedBeforeParse)
  }

  /** The names of `names`, in order, that are not in `registered` (Kotlin's `Set - Set`). */
  function Missing(names: seq<string>, registered: set<string>): (r: seq<string>)
    ensures forall n :: n in r <==> n in names && n !in registered
  {
    if names == [] then []
    else (if names[0] in registered then [] else [names[0]]) + Missing(names[1..], registered)
  }

  /**
   * Help injection: one help option covering the context's help names that
   * no registered option already uses, appended only when there is any.
   */
  function InjectHelp(c: Command, ctx: Context): (r: Command)
    ensures r.(options := c.options) == c
    ensures |c.options| <= |r.options| <= |c.options| + 1 && r.options[..|c.options|] == c.options
    ensures |r.options| == |c.options| + 1
        <==> exists n :: n in ctx.helpOptionNames && n !in RegisteredOptionNames(c)
    ensures |r.options| == |c.options| + 1 ==>
              && r.options[|c.options|].printsHelp
              && NameSet(r.options[|c.options|]) == (set n | n in ctx.helpOptionNames) - RegisteredOptionNames(c)
    ensures forall n :: n in ctx.helpOptionNames ==> n in RegisteredOptionNames(r)
    ensures DistinctNames(c.options) ==> DistinctNames(r.options)
  {
    var names := Missing(ctx.helpOptionNames, RegisteredOptionNames(c));
    MissingCoversDifference(ctx.helpOptionNames, RegisteredOptionNames(c));
    if names == [] then c
    else
      var help := HelpOption(names, ctx.helpOptionMessage);
      AppendHelpOption(c, help, ctx.helpOptionNames);
      c.(options := c.options + [help])
  }

  /** The missing names are exactly the set difference, and none are missing only when all are registered. */
  lemma MissingCoversDifference(names: seq<string>, registered: set<string>)
    ensures (set n | n in Missing(names, registered)) == (set n | n in names) - registered
    ensures Missing(names, registered) == [] <==> forall n :: n in names ==> n in registered
  {
  }

  /** Appending a help option made of the missing names registers every help name and keeps names distinct. */
  lemma AppendHelpOption(c: Command, help: Opt, helpNames: seq<string>)
    requires NameSet(help) == (set n | n in helpNames) - RegisteredOptionNames(c)
    ensures forall n :: n in helpNames ==> n in RegisteredNames(c.options + [help])
    ensures DistinctNames(c.options) ==> DistinctNames(c.options + [help])
  {
  }

  /**
   * Appending the help option directly gives the same command as passing it
   * through `registerOption`, whose duplicate check it always passes.
   */
  lemma InjectHelpIsRegistration(c: Command, ctx: Context)
    requires exists n :: n in ctx.helpOptionNames && n !in RegisteredOptionNames(c)
    ensures var help := HelpOption(Missing(ctx.helpOptionNames, RegisteredOptionNames(c)), ctx.helpOptionMessage);
            RegisterOption(c, help) == Registration(InjectHelp(c, ctx), None)
  {
  }

  /**
   * `createContext`: build this node's context from its customization and
   * the given parent; stop there when the context has no help names;
   * otherwise inject the help option and build every subcommand's context
   * with this node's context as parent, in subcommand order.
   */
  function CreateContext(c: Command, parent: Option<Context>): (r: Command)
    decreases c
    ensures r.context == Some(Build(c.contextConfig, parent))
    ensures r.(options := c.options, subcommands := c.subcommands, context := c.context) == c
    ensures |r.subcommands| == |c.subcommands|
    ensures Build(c.contextConfig, parent).helpOptionNames == [] ==>
              r.options == c.options && r.subcommands == c.subcommands
    ensures forall n :: n in r.context.value.helpOptionNames ==> n in RegisteredOptionNames(r)
    ensures |c.options| <= |r.options| <= |c.options| + 1 && r.options[..|c.options|] == c.options
    ensures Build(c.contextConfig, parent).helpOptionNames != [] ==>
              r.options == InjectHelp(c, Build(c.contextConfig, parent)).options
    ensures Build(c.contextConfig, parent).helpOptionNames != [] ==>
              forall i :: 0 <= i < |r.subcommands| ==>
                && r.subcommands[i].name == c.subcommands[i].name
                && r.subcommands[i].context == Some(Build(c.subcommands[i].contextConfig, r.context))
                && r.subcommands[i].(options := c.subcommands[i].options, subcommands := c.subcommands[i].subcommands,
                                     context := c.subcommands[i].context) == c.subcommands[i]
                && r.subcommands[i] == CreateContext(c.subcommands[i], r.context)
  {
    var ctx := Build(c.contextConfig, parent);
    var withContext := c.(context := Some(ctx));
    if ctx.helpOptionNames == [] then withContext
    else
      var injected := InjectHelp(withContext, ctx);
      injected.(subcommands := seq(|c.subcommands|, i requires 0 <= i < |c.subcommands| =>
                                     CreateContext(c.subcommands[i], Some(ctx))))
  }

  /** Every node of the tree carries a context. */
  predicate AllContextsBuilt(c: Command)
    decreases c
  {
    c.context.Some? && forall i :: 0 <= i < |c.subcommands| ==> AllContextsBuilt(c.subcommands[i])
  }

  /** No node of the tree has two options sharing a name. */
  predicate NamesDistinctThroughout(c: Command)
    decreases c
  {
    DistinctNames(c.options) && forall i :: 0 <= i < |c.subcommands| ==> NamesDistinctThroughout(c.subcommands[i])
  }

  /**
   * Rebuilding the context tree, as every `parse` does, yields the same tree:
   * the help option is never injected twice.
   */
  lemma {:induction false} CreateContextIdempotent(c: Command, parent: Option<Context>)
    decreases c
    ensures CreateContext(CreateContext(c, parent), parent) == CreateContext(c, parent)
  {
    var r := CreateContext(c, parent);
    var ctx := Build(c.contextConfig, parent);
    if ctx.helpOptionNames != [] {
      forall i | 0 <= i < |c.subcommands|
        ensures CreateContext(r.subcommands[i], Some(ctx)) == r.subcommands[i]
      {
        CreateContextIdempotent(c.subcommands[i], Some(ctx));
      }
      var again := CreateContext(r, parent);
      assert again.options == r.options;
      assert again.subcommands == r.subcommands;
    }
  }

  /** Context construction keeps option names distinct in every node it visits. */
  lemma {:induction false} CreateContextKeepsNamesDistinct(c: Command, parent: Option<Context>)
    requires NamesDistinctThroughout(c)
    decreases c
    ensures NamesDistinctThroughout(CreateContext(c, parent))
  {
    var r := CreateContext(c, parent);
    var ctx := Build(c.contextConfig, parent);
    if ctx.helpOptionNames != [] {
      forall i | 0 <= i < |c.subcommands|
        ensures NamesDistinctThroughout(r.subcommands[i])
      {
        CreateContextKeepsNamesDistinct(c.subcommands[i], Some(ctx));
      }
      assert DistinctNames(InjectHelp(c.(context := Some(ctx)), ctx).options);
    }
  }

  /**
   * The early return, as written: when this node's context has no help
   * names, a subcommand that had no context still has none, so reading
   * its `context` fails.
   */
  lemma EmptyHelpNamesSkipSubcommands(c: Command, parent: Option<Context>, i: nat)
    requires Build(c.contextConfig, parent).helpOptionNames == []
    requires i < |c.subcommands| && c.subcommands[i].context.None?
    ensures !AllContextsBuilt(CreateContext(c, parent))
    ensures GetContext(CreateContext(c, parent).subcommands[i]).Failure?
  {
  }

  /**
   * `createContext` as evidently intended: the help option is injected only
   * when there are help names, but the subcommands are always visited.
   */
  function CreateContextIntended(c: Command, parent: Option<Context>): (r: Command)
    decreases c
    ensures AllContextsBuilt(r)
    ensures r.context == Some(Build(c.contextConfig, parent))
    ensures r.(options := c.options, subcommands := c.subcommands, context := c.context) == c
    ensures forall n :: n in r.context.value.helpOptionNames ==> n in RegisteredOptionNames(r)
    ensures |r.subcommands| == |c.subcommands|
    ensures forall i :: 0 <= i < |r.subcommands| ==>
              && r.subcommands[i].name == c.subcommands[i].name
              && r.subcommands[i].context == Some(Build(c.subcommands[i].contextConfig, r.context))
    ensures Build(c.contextConfig, parent).helpOptionNames == [] ==> r.options == c.options
    ensures Build(c.contextConfig, parent).helpOptionNames != [] ==>
              r.options == InjectHelp(c, Build(c.contextConfig, parent)).options
    ensures forall i :: 0 <= i < |r.subcommands| ==>
              r.subcommands[i] == CreateContextIntended(c.subcommands[i], r.context)
  {
    var ctx := Build(c.contextConfig, parent);
    var withContext := c.(context := Some(ctx));
    var withHelp := if ctx.helpOptionNames == [] then withContext else InjectHelp(withContext, ctx);
    withHelp.(subcommands := seq(|c.subcommands|, i requires 0 <= i < |c.subcommands| =>
                                   CreateContextIntended(c.subcommands[i], Some(ctx))))
  }

  /** Every context of the tree, each built with its parent's as parent, has help names. */
  predicate HelpNamesThroughout(c: Command, parent: Option<Context>)
    decreases c
  {
    && Build(c.contextConfig, parent).helpOptionNames != []
    && forall i :: 0 <= i < |c.subcommands| ==>
         HelpNamesThroughout(c.subcommands[i], Some(Build(c.contextConfig, parent)))
  }

  /** No `context { ... }` block of the tree sets the help names to the empty list. */
  predicate HelpNamesNeverCleared(c: Command)
    decreases c
  {
    && c.contextConfig.helpOptionNames != Some([])
    && forall i :: 0 <= i < |c.subcommands| ==> HelpNamesNeverCleared(c.subcommands[i])
  }

  /**
   * The fix only touches the early return: wherever the early return is
   * never taken, the written construction is the intended one, so every
   * node of the tree gets its context.
   */
  lemma {:induction false} CreateContextIntendedAgrees(c: Command, parent: Option<Context>)
    requires HelpNamesThroughout(c, parent)
    decreases c
    ensures CreateContext(c, parent) == CreateContextIntended(c, parent)
    ensures AllContextsBuilt(CreateContext(c, parent))
  {
    var ctx := Build(c.contextConfig, parent);
    forall i | 0 <= i < |c.subcommands|
      ensures CreateContext(c.subcommands[i], Some(ctx)) == CreateContextIntended(c.subcommands[i], Some(ctx))
    {
      CreateContextIntendedAgrees(c.subcommands[i], Some(ctx));
    }
    assert CreateContext(c, parent).subcommands == CreateContextIntended(c, parent).subcommands;
  }

  /**
   * The ordinary case: when no block clears the help names and the parent
   * (if any) has some, every context of the tree has help names, so the
   * early return is never taken.
   */
  lemma {:induction false} UnclearedHelpNamesReachEveryNode(c: Command, parent: Option<Context>)
    requires HelpNamesNeverCleared(c)
    requires parent.None? || parent.value.helpOptionNames != []
    decreases c
    ensures HelpNamesThroughout(c, parent)
  {
    var ctx := Build(c.contextConfig, parent);
    forall i | 0 <= i < |c.subcommands|
      ensures HelpNamesThroughout(c.subcommands[i], Some(ctx))
    {
      UnclearedHelpNamesReachEveryNode(c.subcommands[i], Some(ctx));
    }
  }

  /** A root parsed with no help-name customization anywhere gets a context at every node. */
  lemma RootContextsAllBuilt(c: Command)
    requires HelpNamesNeverCleared(c)
    ensures AllContextsBuilt(CreateContext(c, None))
    ensures CreateContext(c, None) == CreateContextIntended(c, None)
  {
    UnclearedHelpNamesReachEveryNode(c, None);
    CreateContextIntendedAgrees(c, None);
  }

  /* ------------------------------------------------------------ help text */

  predicate IsSentenceEnd(ch: char) { ch == '.' || ch == '\n' }

  /** Index of the first `.` or newline, or the length when there is none. */
  function FirstSentenceEnd(s: string): (k: nat)
    ensures k <= |s|
    ensures forall i :: 0 <= i < k ==> !IsSentenceEnd(s[i])
    ensures k < |s| ==> IsSentenceEnd(s[k])
  {
    if s == [] || IsSentenceEnd(s[0]) then 0 else 1 + FirstSentenceEnd(s[1..])
  }

  /**
   * `shortHelp()`: the first piece of `help.split(".", "\n", limit = 2)`,
   * trimmed.
   */
  function ShortHelp(help: string): (r: string)
    ensures '.' !in r && '\n' !in r
    ensures (forall i :: 0 <= i < |help| ==> !IsSentenceEnd(help[i])) ==> r == Trim(help)
    ensures exists k ::
              && 0 <= k <= |help|
              && (forall i :: 0 <= i < k ==> !IsSentenceEnd(help[i]))
              && (k < |help| ==> IsSentenceEnd(help[k]))
              && IsTrimOf(r, help[..k])
  {
    var k := FirstSentenceEnd(help);
    var first := help[..k];
    var r := Trim(first);
    assert '.' !in first && '\n' !in first by {
      forall x | 0 <= x < |first| ensures !IsSentenceEnd(first[x]) {
        assert first[x] == help[x];
      }
    }
    TrimKeepsOut(first, '.');
    TrimKeepsOut(first, '\n');
    assert k == |help| ==> first == help;
    r
  }

  /** `mapNotNull { it.parameterHelp }`: the present entries, in order. */
  function PresentHelps(entries: seq<Option<ParamHelp>>): (r: seq<ParamHelp>)
    ensures |r| <= |entries|
    ensures forall p :: p in r <==> Some(p) in entries
  {
    if entries == [] then []
    else
      var rest := PresentHelps(entries[1..]);
      assert forall e :: e in entries <==> e == entries[0] || e in entries[1..];
      match entries[0]
      case Some(p) => [p] + rest
      case None => rest
  }

  /** Filtering distributes over concatenation, so the entries keep their relative order. */
  lemma {:induction false} PresentHelpsAppend(a: seq<Option<ParamHelp>>, b: seq<Option<ParamHelp>>)
    ensures PresentHelps(a + b) == PresentHelps(a) + PresentHelps(b)
  {
    if a != [] {
      assert (a + b)[1..] == a[1..] + b;
      PresentHelpsAppend(a[1..], b);
    } else {
      assert a + b == b;
    }
  }

  /**
   * The help slots of the options and of the arguments. `Opt` and `Arg` are
   * separate datatypes, so each gets its own projection onto the sequence
   * `PresentHelps` filters.
   */
  function OptionHelpEntries(options: seq<Opt>): (r: seq<Option<ParamHelp>>)
    ensures |r| == |options| && forall i :: 0 <= i < |options| ==> r[i] == options[i].parameterHelp
  {
    seq(|options|, i requires 0 <= i < |options| => options[i].parameterHelp)
  }

  function ArgumentHelpEntries(arguments: seq<Arg>): (r: seq<Option<ParamHelp>>)
    ensures |r| == |arguments| && forall i :: 0 <= i < |arguments| ==> r[i] == arguments[i].parameterHelp
  {
    seq(|arguments|, i requires 0 <= i < |arguments| => arguments[i].parameterHelp)
  }

  /** An entry is listed for the options iff some option carries it. */
  lemma OptionEntriesPresent(options: seq<Opt>)
    ensures forall p :: p in PresentHelps(OptionHelpEntries(options)) <==>
              exists i :: 0 <= i < |options| && options[i].parameterHelp == Some(p)
  {
    forall p | Some(p) in OptionHelpEntries(options)
      ensures exists i :: 0 <= i < |options| && options[i].parameterHelp == Some(p)
    {
      var i :| 0 <= i < |options| && OptionHelpEntries(options)[i] == Some(p);
    }
  }

  /** An entry is listed for the arguments iff some argument carries it. */
  lemma ArgumentEntriesPresent(arguments: seq<Arg>)
    ensures forall p :: p in PresentHelps(ArgumentHelpEntries(arguments)) <==>
              exists i :: 0 <= i < |arguments| && arguments[i].parameterHelp == Some(p)
  {
    forall p | Some(p) in ArgumentHelpEntries(arguments)
      ensures exists i :: 0 <= i < |arguments| && arguments[i].parameterHelp == Some(p)
    {
      var i :| 0 <= i < |arguments| && ArgumentHelpEntries(arguments)[i] == Some(p);
    }
  }

  /** The three parts of a concatenation, sliced back out. */
  lemma ThreeParts<T>(o: seq<T>, a: seq<T>, s: seq<T>)
    ensures (o + a + s)[..|o|] == o
    ensures (o + a + s)[|o|..|o + a + s| - |s|] == a
    ensures forall i :: 0 <= i < |s| ==> (o + a + s)[|o + a + s| - |s| + i] == s[i]
  {
  }

  /**
   * `allHelpParams()`: the help entries of the options, then those of the
   * arguments (parameters without help metadata are skipped), then one
   * entry per subcommand with its name and short help, in order.
   */
  function AllHelpParams(c: Command): (r: seq<ParamHelp>)
    ensures |c.subcommands| <= |r| <= |c.options| + |c.arguments| + |c.subcommands|
    ensures exists k ::
              && 0 <= k <= |r| - |c.subcommands|
              && (forall p :: p in r[..k] <==>
                    exists i :: 0 <= i < |c.options| && c.options[i].parameterHelp == Some(p))
              && (forall p :: p in r[k..|r| - |c.subcommands|] <==>
                    exists i :: 0 <= i < |c.arguments| && c.arguments[i].parameterHelp == Some(p))
    ensures forall i :: 0 <= i < |c.subcommands| ==>
              r[|r| - |c.subcommands| + i] == SubcommandEntry(c.subcommands[i].name, ShortHelp(c.subcommands[i].help))
  {
    var o := PresentHelps(OptionHelpEntries(c.options));
    var a := PresentHelps(ArgumentHelpEntries(c.arguments));
    var s := seq(|c.subcommands|, i requires 0 <= i < |c.subcommands| =>
                   SubcommandEntry(c.subcommands[i].name, ShortHelp(c.subcommands[i].help)));
    var r := o + a + s;
    OptionEntriesPresent(c.options);
    ArgumentEntriesPresent(c.arguments);
    ThreeParts(o, a, s);
    r
  }

  /** A command paired with what a formatting call returned. */
  datatype Formatted = Formatted(command: Command, text: Rendered)

  /**
   * `getFormattedUsage()`: builds the context as a root only when there is
   * none yet, then formats the parameters of the resulting command.
   */
  function GetFormattedUsage(c: Command): (r: Formatted)
    ensures r.command.context.Some?
    ensures c.context.Some? ==> r.command == c
    ensures c.context.None? ==> r.command == CreateContext(c, None) && r.command.context.value.parent.None?
    ensures r.text == FormattedUsage(AllHelpParams(r.command), c.name)
  {
    var d := if c.context.None? then CreateContext(c, None) else c;
    Formatted(d, FormattedUsage(AllHelpParams(d), d.name))
  }

  /** `getFormattedHelp()`: as `getFormattedUsage`, with the help text and epilog. */
  function GetFormattedHelp(c: Command): (r: Formatted)
    ensures r.command.context.Some?
    ensures c.context.Some? ==> r.command == c
    ensures c.context.None? ==> r.command == CreateContext(c, None) && r.command.context.value.parent.None?
    ensures r.text == FormattedHelp(c.help, c.epilog, AllHelpParams(r.command), c.name)
  {
    var d := if c.context.None? then CreateContext(c, None) else c;
    Formatted(d, FormattedHelp(d.help, d.epilog, AllHelpParams(d), d.name))
  }

  /**
   * Help requested before any parse lists the synthesized help option: the
   * context is built first, so its help names are registered by the time
   * the parameters are gathered.
   */
  lemma FormattedHelpListsHelpOption(c: Command, n: string)
    requires c.context.None?
    requires n in Build(c.contextConfig, None).helpOptionNames
    requires forall i :: 0 <= i < |c.options| && n in c.options[i].names ==> c.options[i].parameterHelp.Some?
    ensures exists i :: 0 <= i < |GetFormattedHelp(c).command.options|
                        && n in GetFormattedHelp(c).command.options[i].names
                        && GetFormattedHelp(c).command.options[i].parameterHelp.Some?
  {
    var d := GetFormattedHelp(c).command;
    assert n in RegisteredOptionNames(d);
    var i :| 0 <= i < |d.options| && n in d.options[i].names;
    if i < |c.options| {
      assert d.options[i] == c.options[i];
    }
  }

  /** `context { ... }`: replaces the customization applied at the next context construction. */
  function Customize(c: Command, config: Config): (r: Command)
    ensures r.contextConfig == config
    ensures r.(contextConfig := c.contextConfig) == c
    ensures forall parent :: CreateContext(r, parent).context == Some(Build(config, parent))
  {
    c.(contextConfig := config)
  }
}

=== FILE: contexts.dfy ===
/**
 * The per-command context. Only the fields the command core reads are kept:
 * the help option names, the help option message, and the parent context.
 * `Context.build` itself lies outside the core; `Build` stands in for it:
 * each field is the block's own setting, else the parent's, else a global
 * default (the defaults below are assumptions, not taken from `Context`).
 */
module Contexts {
  import opened Wrappers

  /** What a `context { ... }` block may set; `None` leaves the field to inheritance. */
  datatype Config = Config(helpOptionNames: Option<seq<string>>, helpOptionMessage: Option<string>)

  /** The empty customization block `{}` every command starts with. */
  const NoCustomization: Config := Config(None, None)

  datatype Context = Context(helpOptionNames: seq<string>, helpOptionMessage: string, parent: Option<Context>)

  const DefaultHelpOptionNames: seq<string> := ["-h", "--help"]
  const DefaultHelpOptionMessage: string := "Show this message and exit"

  /** A field's value: the block's own setting, else the parent's, else the global default. */
  function Inherit<T>(own: Option<T>, fromParent: Option<T>, default: T): T {
    match own
    case Some(v) => v
    case None => fromParent.GetOr(default)
  }

  /** `Context.build(command, parent, config)`. */
  function Build(config: Config, parent: Option<Context>): (ctx: Context)
    ensures ctx.parent == parent
    ensures config.helpOptionNames.Some? ==> ctx.helpOptionNames == config.helpOptionNames.value
    ensures config.helpOptionNames.None? && parent.Some? ==> ctx.helpOptionNames == parent.value.helpOptionNames
    ensures config.helpOptionNames.None? && parent.None? ==> ctx.helpOptionNames == DefaultHelpOptionNames
    ensures config.helpOptionMessage.Some? ==> ctx.helpOptionMessage == config.helpOptionMessage.value
    ensures config.helpOptionMessage.None? && parent.Some? ==> ctx.helpOptionMessage == parent.value.helpOptionMessage
    ensures config.helpOptionMessage.None? && parent.None? ==> ctx.helpOptionMessage == DefaultHelpOptionMessage
  {
    var fromParentNames := match parent case Some(p) => Some(p.helpOptionNames) case None => None;
    var fromParentMessage := match parent case Some(p) => Some(p.helpOptionMessage) case None => None;
    Context(
      Inherit(config.helpOptionNames, fromParentNames, DefaultHelpOptionNames),
      Inherit(config.helpOptionMessage, fromParentMessage, DefaultHelpOptionMessage),
      parent)
  }
}

=== FILE: execution.dfy ===
/**
 * The execution pipeline: `parse` rebuilds the context tree and hands over
 * to the external parser; `main` turns what was thrown into one printed
 * line and an exit status, trying its catch clauses in order.
 */
module Execution {
  import opened Wrappers
  import opened Text
  import opened Contexts
  import opened Commands

  /**
   * What parsing and running can throw. The first five are the clikt
   * signals; `Defect` is any other exception.
   */
  datatype Thrown =
    | PrintHelpMessage(command: Command)
    | PrintMessage(text: string)
    | UsageError(reason: Option<string>)
    | CliktError(message: Option<string>)
    | Abort
    | Defect(description: string)

  /**
   * The external parser: given the arguments and the command whose context
   * tree was just built, it returns normally (`None`) or throws.
   */
  type Parser = (seq<string>, Command) -> Option<Thrown>

  /** The command after `parse` and what the parser threw, if anything. */
  datatype Parsed = Parsed(command: Command, thrown: Option<Thrown>)

  /** `parse(argv, context)`: always rebuilds the context tree, then delegates. */
  function Parse(c: Command, argv: seq<string>, parent: Option<Context>, parser: Parser): (r: Parsed)
    ensures r.command.context == Some(Build(c.contextConfig, parent))
    ensures r.command == CreateContext(c, parent)
    ensures r.thrown == parser(argv, r.command)
  {
    var built := CreateContext(c, parent);
    Parsed(built, parser(argv, built))
  }

  /** Parsing twice with the same parent leaves the command as parsing once. */
  lemma ParseTwiceSameCommand(c: Command, argv: seq<string>, argv': seq<string>, parent: Option<Context>, parser: Parser)
    ensures Parse(Parse(c, argv, parent, parser).command, argv', parent, parser).command
            == Parse(c, argv, parent, parser).command
  {
    CreateContextIdempotent(c, parent);
  }

  /** What `main` prints: plain text, formatter output, or a usage error's help message. */
  datatype Printed =
    | PlainText(text: string)
    | HelpText(rendered: Rendered)
    | UsageHelp(message: Option<string>, context: Context)

  /** How `main` ends: exit with a status after printing, return normally, or let an exception escape. */
  datatype Outcome = Exit(printed: Printed, status: int) | Returned | Propagated(failure: Thrown)

  datatype CatchClause = CatchPrintHelpMessage | CatchPrintMessage | CatchUsageError | CatchCliktError | CatchAbort

  /** The catch clauses of `main`, in source order. */
  const CatchOrder: seq<CatchClause> :=
    [CatchPrintHelpMessage, CatchPrintMessage, CatchUsageError, CatchCliktError, CatchAbort]

  /**
   * Whether a clause's exception type matches. The exception classes are not
   * part of this model: the first three signals are assumed to be subclasses
   * of `CliktError`, so its clause matches them as well, and `Abort` is
   * assumed not to be one.
   */
  predicate Catches(clause: CatchClause, t: Thrown) {
    match clause
    case CatchPrintHelpMessage => t.PrintHelpMessage?
    case CatchPrintMessage => t.PrintMessage?
    case CatchUsageError => t.UsageError?
    case CatchCliktError => t.PrintHelpMessage? || t.PrintMessage? || t.UsageError? || t.CliktError?
    case CatchAbort => t.Abort?
  }

  /** The clause that handles `t`: the first one in order that matches. */
  function FirstCatch(clauses: seq<CatchClause>, t: Thrown): (r: Option<CatchClause>)
    ensures r.None? <==> forall i :: 0 <= i < |clauses| ==> !Catches(clauses[i], t)
    ensures r.Some? ==> exists i :: 0 <= i < |clauses| && clauses[i] == r.value && Catches(r.value, t)
                                  && forall j :: 0 <= j < i ==> !Catches(clauses[j], t)
  {
    if clauses == [] then None
    else if Catches(clauses[0], t) then Some(clauses[0])
    else
      var r := FirstCatch(clauses[1..], t);
      assert r.Some? ==> exists i :: 1 <= i < |clauses| && clauses[i] == r.value && Catches(r.value, t)
                                   && forall j :: 0 <= j < i ==> !Catches(clauses[j], t) by {
        if r.Some? {
          var i :| 0 <= i < |clauses[1..]| && clauses[1..][i] == r.value && Catches(r.value, t)
                   && forall j :: 0 <= j < i ==> !Catches(clauses[1..][j], t);
          assert clauses[i + 1] == r.value;
          assert forall j :: 1 <= j < i + 1 ==> clauses[j] == clauses[1..][j - 1];
        }
      }
      r
  }

  /** Kotlin's `message` property of each signal. */
  function MessageOf(t: Thrown): Option<string> {
    match t
    case PrintMessage(m) => Some(m)
    case UsageError(m) => m
    case CliktError(m) => m
    case Defect(d) => Some(d)
    case _ => None
  }

  /** The body of a catch clause, run on the exception it caught. */
  function Respond(clause: CatchClause, self: Command, t: Thrown): Outcome
    requires Catches(clause, t)
  {
    match clause
    case CatchPrintHelpMessage => Exit(HelpText(GetFormattedHelp(t.command).text), 0)
    case CatchPrintMessage => Exit(PlainText(t.text), 0)
    case CatchUsageError =>
      (match GetContext(self)
       case Success(ctx) => Exit(UsageHelp(t.reason, ctx), 1)
       case Failure(e) => Propagated(Defect(e)))
    case CatchCliktError => Exit(PlainText(NullableText(MessageOf(t))), 1)
    case CatchAbort => Exit(PlainText("Aborted!"), 1)
  }

  /** The clause `main` picks for each kind of exception, found by scanning `CatchOrder`. */
  lemma {:induction false} ClauseFor(t: Thrown)
    ensures t.PrintHelpMessage? ==> FirstCatch(CatchOrder, t) == Some(CatchPrintHelpMessage)
    ensures t.PrintMessage? ==> FirstCatch(CatchOrder, t) == Some(CatchPrintMessage)
    ensures t.UsageError? ==> FirstCatch(CatchOrder, t) == Some(CatchUsageError)
    ensures t.CliktError? ==> FirstCatch(CatchOrder, t) == Some(CatchCliktError)
    ensures t.Abort? ==> FirstCatch(CatchOrder, t) == Some(CatchAbort)
    ensures t.Defect? ==> FirstCatch(CatchOrder, t) == None
  {
    var s1 := [CatchPrintMessage, CatchUsageError, CatchCliktError, CatchAbort];
    var s2 := [CatchUsageError, CatchCliktError, CatchAbort];
    var s3 := [CatchCliktError, CatchAbort];
    var s4 := [CatchAbort];
    assert CatchOrder[1..] == s1 && s1[1..] == s2 && s2[1..] == s3 && s3[1..] == s4 && s4[1..] == [];
    assert FirstCatch(s4, t) == if t.Abort? then Some(CatchAbort) else None;
    assert FirstCatch(s3, t) == if t.Abort? then Some(CatchAbort)
                                else if Catches(CatchCliktError, t) then Some(CatchCliktError) else None;
    assert FirstCatch(s2, t) == if t.UsageError? then Some(CatchUsageError) else FirstCatch(s3, t);
    assert FirstCatch(s1, t) == if t.PrintMessage? then Some(CatchPrintMessage) else FirstCatch(s2, t);
  }

  /**
   * The try/catch of `main` on the exception `t`, with `self` the receiver
   * as `parse` left it. Each signal gets its own row of the table; anything
   * else escapes.
   */
  function Handle(self: Command, t: Thrown): (r: Outcome)
    ensures t.PrintHelpMessage? ==> r == Exit(HelpText(GetFormattedHelp(t.command).text), 0)
    ensures t.PrintMessage? ==> r == Exit(PlainText(t.text), 0)
    ensures t.UsageError? && self.context.Some? ==> r == Exit(UsageHelp(t.reason, self.context.value), 1)
    ensures t.UsageError? && self.context.None? ==> r == Propagated(Defect(ContextAccessedBeforeParse))
    ensures t.CliktError? ==> r == Exit(PlainText(NullableText(t.message)), 1)
    ensures t.Abort? ==> r == Exit(PlainText("Aborted!"), 1)
    ensures t.Defect? ==> r == Propagated(t)
  {
    ClauseFor(t);
    match FirstCatch(CatchOrder, t)
    case None => Propagated(t)
    case Some(clause) => Respond(clause, self, t)
  }

  /**
   * The first matching clause wins: every signal that the `CliktError`
   * clause would also match is handled by its own earlier clause.
   */
  lemma EarlierClauseWins(t: Thrown)
    requires Catches(CatchCliktError, t) && !t.CliktError?
    ensures FirstCatch(CatchOrder, t).Some? && FirstCatch(CatchOrder, t) != Some(CatchCliktError)
  {
    ClauseFor(t);
  }

  /**
   * `main(argv)`: parse as a root; a normal return returns, a signal prints
   * and exits, any other exception escapes.
   */
  function Main(c: Command, argv: seq<string>, parser: Parser): (r: Outcome)
    ensures parser(argv, CreateContext(c, None)).None? <==> r.Returned?
    ensures r.Propagated? <==> (exists d :: parser(argv, CreateContext(c, None)) == Some(Defect(d)))
    ensures r.Propagated? ==> parser(argv, CreateContext(c, None)) == Some(r.failure)
    ensures r.Exit? ==> (r.status == 0 <==> (parser(argv, CreateContext(c, None)).value.PrintHelpMessage?
                                             || parser(argv, CreateContext(c, None)).value.PrintMessage?))
    ensures r.Exit? ==> r.status == 0 || r.status == 1
    ensures parser(argv, CreateContext(c, None)).Some? ==>
              r == Handle(CreateContext(c, None), parser(argv, CreateContext(c, None)).value)
  {
    var parsed := Parse(c, argv, None, parser);
    match parsed.thrown
    case None => Returned
    case Some(t) => Handle(parsed.command, t)
  }

  /**
   * Help requested while parsing a root: the help of the raising command is
   * printed, and as that command already has its context the parameters are
   * those of the tree `parse` built; the status is 0.
   */
  lemma HelpRequestExitsZero(c: Command, argv: seq<string>, parser: Parser)
    requires parser(argv, CreateContext(c, None)) == Some(PrintHelpMessage(CreateContext(c, None)))
    ensures Main(c, argv, parser)
            == Exit(HelpText(FormattedHelp(c.help, c.epilog, AllHelpParams(CreateContext(c, None)), c.name)), 0)
  {
  }

  /** A usage error prints the error's help message for the root context and exits with 1. */
  lemma UsageErrorExitsOne(c: Command, argv: seq<string>, parser: Parser, message: Option<string>)
    requires parser(argv, CreateContext(c, None)) == Some(UsageError(message))
    ensures Main(c, argv, parser) == Exit(UsageHelp(message, Build(c.contextConfig, None)), 1)
  {
    var built := CreateContext(c, None);
    assert Handle(built, UsageError(message)) == Exit(UsageHelp(message, built.context.value), 1);
  }
}

=== FILE: params.dfy ===
/**
 * Options and arguments as the command core sees them: the names an option
 * answers to, and the help metadata each parameter hands to the formatter.
 * Their value types, parsing and validation live outside the core.
 */
module Params {
  import opened Wrappers

  /** The formatter's `ParameterHelp` entries, reduced to what the core needs. */
  datatype ParamHelp =
    | OptionEntry(names: seq<string>, help: string)
    | ArgumentEntry(name: string, help: string)
    | SubcommandEntry(name: string, help: string)

  /**
   * An option: its names in declaration order (the iteration order of the
   * Kotlin set), its help metadata, and whether matching it requests help.
   */
  datatype Opt = Opt(names: seq<string>, parameterHelp: Option<ParamHelp>, printsHelp: bool)

  /** A positional argument; the core never looks at its name. */
  datatype Arg = Arg(name: string, parameterHelp: Option<ParamHelp>)

  function NameSet(o: Opt): set<string> {
    set n | n in o.names
  }

  /** The synthesized help flag `helpOption(names, message)`. */
  function HelpOption(names: seq<string>, message: string): Opt {
    Opt(names, Some(OptionEntry(names, message)), true)
  }

  /** `registeredOptionNames()`: the union of the names of every option in the list. */
  function RegisteredNames(options: seq<Opt>): (r: set<string>)
    ensures forall n :: n in r <==> exists i :: 0 <= i < |options| && n in options[i].names
  {
    if options == [] then {}
    else
      var init := options[..|options| - 1];
      assert forall i :: 0 <= i < |init| ==> init[i] == options[i];
      RegisteredNames(init) + NameSet(options[|options| - 1])
  }

  /** No name is shared by two different options of the list. */
  predicate DistinctNames(options: seq<Opt>) {
    forall i, j :: 0 <= i < j < |options| ==> NameSet(options[i]) !! NameSet(options[j])
  }

  /** Appending an option adds exactly its names to the registered ones. */
  lemma RegisteredNamesAppend(options: seq<Opt>, o: Opt)
    ensures RegisteredNames(options + [o]) == RegisteredNames(options) + NameSet(o)
  {
  }

  /** An option whose names are all new keeps the names of the list distinct. */
  lemma DistinctNamesAppend(options: seq<Opt>, o: Opt)
    requires DistinctNames(options)
    requires NameSet(o) !! RegisteredNames(options)
    ensures DistinctNames(options + [o])
  {
  }
}

=== FILE: subcommands.dfy ===
/**
 * Attaching subcommands: children are appended in order, and a child with no
 * environment-variable prefix of its own derives one from the parent's prefix
 * and its own name.
 */
module Subcommands {
  import opened Wrappers
  import opened Text
  import opened Commands

  /** The characters an environment-variable name part is made of. */
  predicate IsEnvvarChar(ch: char) { 'A' <= ch <= 'Z' || '0' <= ch <= '9' || ch == '_' }

  /** `replace(Regex("\\W"), "_")`: each non-word character becomes one underscore. */
  function ReplaceNonWord(s: string): (r: string)
    ensures |r| == |s|
    ensures forall i :: 0 <= i < |s| ==> r[i] == (if IsWordChar(s[i]) then s[i] else '_')
  {
    if s == [] then []
    else [if IsWordChar(s[0]) then s[0] else '_'] + ReplaceNonWord(s[1..])
  }

  /**
   * The name part of a derived prefix: non-word characters replaced one by
   * one (runs are not collapsed), then upper-cased.
   */
  function EnvvarName(name: string): (r: string)
    ensures |r| == |name|
    ensures forall i :: 0 <= i < |r| ==> IsEnvvarChar(r[i])
    ensures forall i :: 0 <= i < |name| ==> IsWordChar(name[i]) ==> r[i] == UpperChar(name[i])
    ensures forall i :: 0 <= i < |name| ==> !IsWordChar(name[i]) ==> r[i] == '_'
  {
    Upper(ReplaceNonWord(name))
  }

  /** Normalizing an already normalized name changes nothing. */
  lemma EnvvarNameIdempotent(name: string)
    ensures EnvvarName(EnvvarName(name)) == EnvvarName(name)
  {
  }

  /**
   * `normalizeEnvvar(prefix, name)` as written: `prefix.let` (not `?.let`)
   * runs its block for a null prefix too, and Kotlin's `String?.plus`
   * renders that null as the text "null".
   */
  function NormalizeEnvvar(prefix: Option<string>, name: string): (r: string)
    ensures |r| == |NullableText(prefix)| + 1 + |name|
    ensures prefix.Some? ==> r[..|prefix.value|] == prefix.value
    ensures prefix.None? ==> r[..4] == "null"
    ensures r[|NullableText(prefix)|] == '_'
    ensures r[|NullableText(prefix)| + 1..] == EnvvarName(name)
  {
    NullableText(prefix) + "_" + EnvvarName(name)
  }

  /** The loop body of `subcommands(...)`: only a missing prefix is filled in. */
  function InheritPrefix(child: Command, parentPrefix: Option<string>): (r: Command)
    ensures r.autoEnvvarPrefix.Some?
    ensures child.autoEnvvarPrefix.Some? ==> r == child
    ensures child.autoEnvvarPrefix.None? ==>
              r == child.(autoEnvvarPrefix := Some(NormalizeEnvvar(parentPrefix, child.name)))
  {
    if child.autoEnvvarPrefix.None? then
      child.(autoEnvvarPrefix := Some(NormalizeEnvvar(parentPrefix, child.name)))
    else child
  }

  /**
   * `subcommands(...)`: the children go to the end of the subcommand list in
   * the given order, each with a prefix; nothing else about the parent
   * changes.
   */
  function Subcommands(parent: Command, children: seq<Command>): (r: Command)
    ensures r.(subcommands := parent.subcommands) == parent
    ensures |r.subcommands| == |parent.subcommands| + |children|
    ensures r.subcommands[..|parent.subcommands|] == parent.subcommands
    ensures forall i :: 0 <= i < |children| ==>
              r.subcommands[|parent.subcommands| + i] == InheritPrefix(children[i], parent.autoEnvvarPrefix)
    ensures forall i :: |parent.subcommands| <= i < |r.subcommands| ==> r.subcommands[i].autoEnvvarPrefix.Some?
  {
    var attached := seq(|children|, i requires 0 <= i < |children| =>
                          InheritPrefix(children[i], parent.autoEnvvarPrefix));
    parent.(subcommands := parent.subcommands + attached)
  }

  /** Attaching several children one call at a time gives the same list as one call. */
  lemma SubcommandsCompose(parent: Command, xs: seq<Command>, ys: seq<Command>)
    ensures Subcommands(Subcommands(parent, xs), ys) == Subcommands(parent, xs + ys)
  {
  }

  /** The name "child" normalizes to "CHILD". */
  lemma ChildEnvvarName()
    ensures EnvvarName("child") == "CHILD"
  {
  }

  /**
   * With no prefix on either side, a child named "child" gets the prefix
   * "null_CHILD": the null parent prefix leaks in as text.
   */
  lemma NullParentPrefixBecomesText(parent: Command, child: Command)
    requires parent.autoEnvvarPrefix.None? && child.autoEnvvarPrefix.None? && child.name == "child"
    ensures Subcommands(parent, [child]).subcommands[|parent.subcommands|].autoEnvvarPrefix == Some("null_CHILD")
  {
    ChildEnvvarName();
    assert NullableText(None) == "null";
    assert NormalizeEnvvar(None, "child") == "null_CHILD";
    assert InheritPrefix(child, None).autoEnvvarPrefix == Some(NormalizeEnvvar(None, "child"));
    assert [child][0] == child;
  }

  /** `normalizeEnvvar` with `prefix?.let`: no prefix is derived from an absent one. */
  function NormalizeEnvvarIntended(prefix: Option<string>, name: string): (r: Option<string>)
    ensures r.None? <==> prefix.None?
    ensures prefix.Some? ==> r == Some(NormalizeEnvvar(prefix, name))
  {
    match prefix
    case None => None
    case Some(p) => Some(p + "_" + EnvvarName(name))
  }

  function InheritPrefixIntended(child: Command, parentPrefix: Option<string>): (r: Command)
    ensures child.autoEnvvarPrefix.Some? ==> r == child
    ensures child.autoEnvvarPrefix.None? && parentPrefix.None? ==> r == child
    ensures child.autoEnvvarPrefix.None? && parentPrefix.Some? ==>
              r == child.(autoEnvvarPrefix := Some(parentPrefix.value + "_" + EnvvarName(child.name)))
  {
    if child.autoEnvvarPrefix.None? then
      child.(autoEnvvarPrefix := NormalizeEnvvarIntended(parentPrefix, child.name))
    else child
  }

  /** `subcommands(...)` with the corrected prefix derivation. */
  function SubcommandsIntended(parent: Command, children: seq<Command>): (r: Command)
    ensures r.(subcommands := parent.subcommands) == parent
    ensures |r.subcommands| == |parent.subcommands| + |children|
    ensures r.subcommands[..|parent.subcommands|] == parent.subcommands
    ensures forall i :: 0 <= i < |children| ==>
              r.subcommands[|parent.subcommands| + i] == InheritPrefixIntended(children[i], parent.autoEnvvarPrefix)
    ensures parent.autoEnvvarPrefix.None? ==>
              forall i :: 0 <= i < |children| ==>
                r.subcommands[|parent.subcommands| + i] == children[i]
  {
    var attached := seq(|children|, i requires 0 <= i < |children| =>
                          InheritPrefixIntended(children[i], parent.autoEnvvarPrefix));
    parent.(subcommands := parent.subcommands + attached)
  }

  /** Once the parent has a prefix the corrected and the written attachment agree. */
  lemma SubcommandsAgreeWithPrefix(parent: Command, children: seq<Command>)
    requires parent.autoEnvvarPrefix.Some?
    ensures SubcommandsIntended(parent, children) == Subcommands(parent, children)
  {
  }
}

=== FILE: text.dfy ===
/**
 * The few pieces of Kotlin's string library the command core relies on:
 * rendering of a nullable string, the regex class `\w`, ASCII case
 * conversion, `trim()` and the last piece of `split`.
 */
module Text {
  import opened Wrappers

  /** How Kotlin's `+` and `println` render a `String?`: null prints as "null". */
  function NullableText(s: Option<string>): string {
    match s
    case Some(v) => v
    case None => "null"
  }

  predicate IsAsciiLetter(c: char) { 'a' <= c <= 'z' || 'A' <= c <= 'Z' }

  predicate IsAsciiDigit(c: char) { '0' <= c <= '9' }

  /** The regex class `\w` without the Unicode flag: `[a-zA-Z_0-9]`. */
  predicate IsWordChar(c: char) { IsAsciiLetter(c) || IsAsciiDigit(c) || c == '_' }

  function UpperChar(c: char): char {
    if 'a' <= c <= 'z' then (c as int - 32) as char else c
  }

  function LowerChar(c: char): char {
    if 'A' <= c <= 'Z' then (c as int + 32) as char else c
  }

  function Upper(s: string): (r: string)
    ensures |r| == |s|
    ensures forall i :: 0 <= i < |s| ==> r[i] == UpperChar(s[i])
  {
    seq(|s|, i requires 0 <= i < |s| => UpperChar(s[i]))
  }

  function Lower(s: string): (r: string)
    ensures |r| == |s|
    ensures forall i :: 0 <= i < |s| ==> r[i] == LowerChar(s[i])
  {
    seq(|s|, i requires 0 <= i < |s| => LowerChar(s[i]))
  }

  /**
   * Kotlin's `Char.isWhitespace()`: Java's `isWhitespace` or `isSpaceChar`,
   * i.e. tab to carriage return, the four information separators, and every
   * Unicode space, line or paragraph separator.
   */
  predicate IsWhitespace(c: char) {
    var n := c as int;
    || 0x09 <= n <= 0x0D
    || 0x1C <= n <= 0x20
    || n == 0xA0 || n == 0x1680
    || 0x2000 <= n <= 0x200A
    || n == 0x2028 || n == 0x2029 || n == 0x202F || n == 0x205F || n == 0x3000
  }

  /** Drops leading whitespace. */
  function TrimStart(s: string): (r: string)
    ensures |r| <= |s| && r == s[|s| - |r|..]
    ensures forall k :: 0 <= k < |s| - |r| ==> IsWhitespace(s[k])
    ensures r != [] ==> !IsWhitespace(r[0])
  {
    if s != [] && IsWhitespace(s[0]) then TrimStart(s[1..]) else s
  }

  /** Drops trailing whitespace. */
  function TrimEnd(s: string): (r: string)
    ensures |r| <= |s| && r == s[..|r|]
    ensures forall k :: |r| <= k < |s| ==> IsWhitespace(s[k])
    ensures r != [] ==> !IsWhitespace(r[|r| - 1])
  {
    if s != [] && IsWhitespace(s[|s| - 1]) then TrimEnd(s[..|s| - 1]) else s
  }

  /** `s[..i]` and `s[j..]` hold only whitespace and `s[i..j]` neither starts nor ends with it. */
  ghost predicate TrimBounds(s: string, i: int, j: int) {
    && 0 <= i <= j <= |s|
    && (forall k :: 0 <= k < i ==> IsWhitespace(s[k]))
    && (forall k :: j <= k < |s| ==> IsWhitespace(s[k]))
    && (i < j ==> !IsWhitespace(s[i]) && !IsWhitespace(s[j - 1]))
  }

  /** `r` is what `s.trim()` must return: `s` without its whitespace margins. */
  ghost predicate IsTrimOf(r: string, s: string) {
    exists i, j :: TrimBounds(s, i, j) && r == s[i..j]
  }

  /** Kotlin's `String.trim()`. */
  function Trim(s: string): (r: string)
    ensures IsTrimOf(r, s)
  {
    var t := TrimStart(s);
    var r := TrimEnd(t);
    var a := |s| - |t|;
    assert r == s[a..a + |r|];
    assert forall k :: a + |r| <= k < |s| ==> s[k] == t[k - a];
    assert r != [] ==> s[a] == r[0] && s[a + |r| - 1] == r[|r| - 1];
    assert TrimBounds(s, a, a + |r|);
    r
  }

  /** Only one slice of `s` has whitespace-only margins and trimmed ends (or is empty). */
  lemma TrimBoundsUnique(s: string, i: int, j: int, i': int, j': int)
    requires TrimBounds(s, i, j) && TrimBounds(s, i', j')
    ensures s[i..j] == s[i'..j']
  {
  }

  /** `trim()` is fully determined by its description: any trim of `s` is `Trim(s)`. */
  lemma TrimUnique(r: string, s: string)
    requires IsTrimOf(r, s)
    ensures r == Trim(s)
  {
    var i, j :| TrimBounds(s, i, j) && r == s[i..j];
    assert IsTrimOf(Trim(s), s);
    var i', j' :| TrimBounds(s, i', j') && Trim(s) == s[i'..j'];
    TrimBoundsUnique(s, i, j, i', j');
  }

  /** Trimming introduces no character that was not there. */
  lemma TrimKeepsOut(s: string, ch: char)
    requires ch !in s
    ensures ch !in Trim(s)
  {
  }

  /** The last piece of `s.split(sep)`: the text after the last `sep`, or all of `s`. */
  function LastSegment(s: string, sep: char): (r: string)
    ensures |r| <= |s| && r == s[|s| - |r|..]
    ensures sep !in r
    ensures |r| < |s| ==> s[|s| - |r| - 1] == sep
  {
    if s == [] then []
    else if s[|s| - 1] == sep then []
    else LastSegment(s[..|s| - 1], sep) + [s[|s| - 1]]
  }
}

=== FILE: wrappers.dfy ===
/** Wrappers: a nullable value and a value-or-error. */
module Wrappers {

  /** Stands for a Kotlin nullable reference `T?`. */
  datatype Option<+T> = None | Some(value: T) {

    /** The value, or `default` when absent (Kotlin's `?:`). */
    function GetOr(default: T): T {
      match this
      case Some(v) => v
      case None => default
    }
  }

  /** Either a value or the error a Kotlin call would have thrown instead. */
  datatype Result<+R, +E> = Success(value: R) | Failure(error: E)
}
